=== FILE: README.md ===
# Email intake: a Dafny model

This project models the email-intake logic of a small landing site. A
visitor posts an email address. The server validates it, normalises it,
refuses it if the address is already in a Google Sheet, and otherwise appends
one row `[address, date]` to that sheet. It uses an access token it caches in
process memory, and it creates the spreadsheet on first use when no
spreadsheet id is configured. A second variant of the same intake,
written as a Google Apps Script `doPost`, is modelled up to its decision to
append.

Modules:

- `Base`: `Option` (JavaScript's `undefined` versus a value) and `Result`.
- `Text`: the string operations the intake relies on. These are the
  whitespace class shared by `trim` and `\S`, `String.prototype.trim`, ASCII
  `toLowerCase`, and `/\S+@\S+\.\S+/.test`. The regular expression has a
  reference meaning, "some substring splits as `x@y.z` with `x`, `y`, `z`
  non-empty and free of whitespace". It also has a compiled test, and the two
  are proved equal.
- `TokenCache`: `getAccessToken` as a pure function. Its inputs are the
  cached descriptor, the clock, the two identity variables and the
  connector's reply.
- `Intake`: the `POST /submit-email` handler and `addEmailToSheet`. Each is a
  transition of an explicit state: process memory (token cache, cached
  spreadsheet id) plus the reachable spreadsheets, each a sequence of rows.
- `IntakeRun`: requests handled one after another.
- `AppsScript`: the `doPost` variant, and how its duplicate test differs from
  the server's.

Conventions:

- JavaScript values that are only tested for truthiness are strings. Here
  `""` stands for missing, `null` and empty alike. This covers environment
  variables, the cached spreadsheet id and tokens.
- `req.body.email` is `Absent`, a string, or some other JSON value that is
  truthy or falsy. A truthy non-string has no `trim` method, so the handler
  throws and answers 500.
- The outside world of one request is an `Oracle`. It supplies the clock, the
  connector's reply (the same reply for every token fetch of the request),
  the id the spreadsheet service gives a created spreadsheet (or failure),
  whether `values.get` and `values.append` answer or throw, and the formatted
  timestamp.
- A Sheets call made with an empty (undefined) token throws. Reading an
  empty spreadsheet id, or one that does not exist, also throws. A failed
  append adds nothing.
- Every exception in the handler becomes `500 "Server error. Please try again."`.

Behaviour of the code worth knowing:

- Validation tests the trimmed input with its letter case intact.
  Lowercasing happens only inside `addEmailToSheet`.
  `Text.PatternIgnoresCase` shows that the order does not matter.
- The shape test is unanchored, so an input containing whitespace passes
  whenever some part of it has the shape. `Text.SpacesOutsideMatchPass` gives
  examples, and `Text.PatternInContext` proves it in general.
- A cache hit returns only `settings.access_token`, without the OAuth
  fallback applied after a fetch (`TokenCache.HitIgnoresOAuthFallback`).
- A missing identity variable is an error only when the cached token has
  expired or is absent.

## Model

| member | source | states |
|---|---|---|
| Text.IsSpace | server.js:145-146 | The whitespace class shared by `trim` and `\S`: the ECMAScript WhiteSpace and LineTerminator code points. This predicate has no contract of its own; `Text.Trim` and `Text.EmailPattern` are stated in terms of it. |
| Text.Trim | server.js:145 | The result is the input with leading and trailing whitespace cut off. Everything cut is whitespace, and what remains is empty or starts and ends with a non-space character. |
| Text.TrimUnique | server.js:145 | Any bounds that cut only whitespace and keep non-space ends select exactly what `trim` returns, so `trim` is fully determined. |
| Text.TrimIdempotent | server.js:101 | Trimming an already trimmed string changes nothing. |
| Text.TrimIgnoresPadding | server.js:145 | Adding whitespace on either side of a string does not change its trim. |
| Text.ToLower | server.js:101 | Lowercasing keeps the length and maps every character independently (ASCII letters to lower case, the rest unchanged). |
| Text.ToLowerIdempotent | server.js:117 | A lowercased string is its own lowercase, so a stored normalised address matches itself under the dedup test. |
| Text.LowerKeepsSpaces | server.js:101 | Lowercasing never turns whitespace into non-whitespace or back. |
| Text.TrimLowerCommute | server.js:101 | `trim().toLowerCase()` equals `toLowerCase().trim()`. |
| Text.EmailPattern | server.js:146-147 | The compiled `/\S+@\S+\.\S+/.test` answers true exactly when some substring splits as `x@y.z` with `x`, `y`, `z` non-empty and whitespace-free. |
| Text.PatternOccursLocally | server.js:146 | Some substring matching is equivalent to an `@` and a later `.` with a non-space character before the `@`, between them and after the `.`, and no whitespace in that span. |
| Text.PatternInContext | server.js:146-147 | Any text added around a matching string, whitespace included, still matches (the pattern is unanchored). |
| Text.SpacesOutsideMatchPass | server.js:146-147 | `"write to a@b.co today"` and `" a@b.co "` pass the test. |
| Text.NonMatches | server.js:146-148 | `"a@b"`, `"@b.co"`, `"a@.co"`, `"a b@c d.e"` and `"   "` fail the test. |
| Text.NoPatternInSpaces | server.js:145-148 | A whitespace-only string never matches. |
| Text.PatternNeedsAtAndDot | server.js:146 | A matching string contains `@` and `.` and has at least five characters. |
| Text.PatternSurvivesTrim | server.js:145-147 | Testing the trimmed input gives the same answer as testing the raw input. |
| Text.MatchInsideTrim | server.js:145-147 | A match lies inside the trim bounds, so the trimmed string keeps it. |
| Text.PatternIgnoresCase | server.js:146 | Lowercasing never changes the test's answer. |
| TokenCache.IdentityHeader | server.js:28-32 | The header is `"repl " + REPL_IDENTITY` when that is set, otherwise `"depl " + WEB_REPL_RENEWAL` when that is set, otherwise there is none. |
| TokenCache.FetchedToken | server.js:48 | A fetched descriptor yields `settings.access_token` when set, else the OAuth credentials token. It yields nothing when the descriptor or its settings are missing or both tokens are empty. |
| TokenCache.GetAccessToken | server.js:22-54 | A hit (settings and expiry present, expiry strictly after now) returns `settings.access_token` with no fetch and the cache unchanged. A miss without identity throws before any fetch. A miss with identity fetches once with that header. An unreachable connector throws and leaves the cache. An answer overwrites the cache even when it then throws "not connected". |
| TokenCache.IsFresh | server.js:23 | The cache is used when a descriptor with settings and an expiry is held and the expiry is strictly after the clock. This predicate has no contract of its own; `TokenCache.GetAccessToken` states what a hit and a miss do. |
| TokenCache.RefreshIsReused | server.js:23-38 | A descriptor fetched with an expiry later than the next call's clock is reused by that call with no fetch, whatever the identity variables and the connector's reply. It yields the same token when `settings.access_token` is set. |
| TokenCache.LookupSettles | server.js:22-54 | A second lookup with the same clock, identity and connector reply leaves the cache where the first lookup left it. |
| TokenCache.HitIgnoresOAuthFallback | server.js:23-48 | A descriptor carrying only the OAuth token yields that token when fetched, but an empty one when it is reused from the cache. |
| Intake.NormalizeAfterTrim | server.js:101 | The handler's trim followed by `addEmailToSheet`'s trim and lowercase equals a single trim and lowercase. |
| Intake.NormalizeIdempotent | server.js:101 | Normalising a normalised address changes nothing. |
| Intake.SpreadsheetId | server.js:104 | The id in use is the cached id when set, else `SPREADSHEET_ID`. It is empty, meaning "create one", exactly when both are empty. |
| Intake.Normalize | server.js:101 | The stored form of an address is no longer than the input, has no ASCII capital letters, and neither starts nor ends with whitespace. |
| Intake.Falsy | server.js:141 | An email field is falsy when it is missing, the empty string, or a falsy non-string JSON value. This predicate has no contract of its own; `Intake.Submit` states that exactly these get "Email is required". |
| Intake.SameAddress | server.js:117 | A row matches an address when its column A is non-empty and its lowercase is identical to the address. This predicate has no contract of its own; `Intake.AnySame` is stated in terms of it. |
| Intake.AnySame | server.js:116-117 | The left-to-right scan reports a duplicate exactly when some row has a non-empty column A whose lowercase equals the normalised address. |
| Intake.NormalizedHasAt | server.js:101 | The normal form of a valid input still contains an `@`. |
| Intake.NoAtNeverSame | server.js:117 | A column-A value without `@` never matches an address that has one. |
| Intake.HeaderNeverSame | server.js:84-85 | No valid address matches the header row `["Email Address", "Date Submitted"]`. |
| Intake.Authorized | server.js:57-64 | A Sheets client can make calls only with a non-empty token. This predicate has no contract of its own; `Intake.CheckAndAppend` and `Intake.ResolveSpreadsheet` state that every call throws without one. |
| Intake.CheckAndAppend | server.js:111-134 | It reports a duplicate exactly when the token is non-empty, the id is non-empty and exists, the read answers, and some row matches. It appends `[address, timestamp]` exactly when the same holds with no row matching and the append answers. In every other case it throws. Nothing but the appended row changes. |
| Intake.ResolveSpreadsheet | server.js:104-109 | A known id is used with nothing changed. Otherwise the created spreadsheet holds just the header row and its id is cached. If the creation or its token lookup throws, the spreadsheets and cached id are untouched. With no id known, a working second token and an id from the service, the creation goes through. The token cache is left as the creation's own lookup leaves it. |
| Intake.AddEmailToSheet | server.js:100-135 | A spreadsheet is created only when no id is cached or configured, and its id becomes the cached id. Without a creation the cached id is unchanged. The token cache is what the first lookup left, or on the creation path what the second lookup then left. |
| Intake.NoAppendNoChange | server.js:100-135 | Unless it appends, `addEmailToSheet` changes no spreadsheet except one it created, which then holds just the header row. |
| Intake.DuplicateOnlyInKnownSheet | server.js:116-121 | A duplicate is only reported from a spreadsheet that existed before the request, and then no spreadsheet changes. |
| Intake.Submit | server.js:137-162 | Responses are exactly the five the handler sends, and success holds exactly for status 200. "Email is required" is sent exactly for a falsy email. "Invalid email address" is sent exactly for a non-empty string failing the test, raw or trimmed alike. Every request that never reaches `addEmailToSheet` leaves all state unchanged: a required, invalid or truthy non-string field. A duplicate leaves every spreadsheet unchanged. A 500 from a failed Sheets call appends nothing: the spreadsheets are as before, or one created during the request holds just the header row. |
| Intake.RejectionReadsNothing | server.js:141-149 | Required and invalid answers depend on the email field alone: any state, environment or oracle gives the same answer, and nothing changes. |
| Intake.WhitespaceOnlyIsInvalid | server.js:141-149 | A non-empty whitespace-only input is answered "Invalid email address", not "Email is required". |
| Intake.NoIdentityIsServerError | server.js:34-36 | With a stale cache and no identity variable, a valid request ends in the generic 500 with nothing changed. |
| Intake.CacheAfterRequest | server.js:19-54 | A valid request leaves, for the next request, exactly the token cache its first lookup left. Any other request changes no state at all. |
| Intake.TokenErrorIsServerError | server.js:158-161 | Any failure of the first token lookup ends a valid request in the generic 500. No spreadsheet is touched, and the token cache keeps what the lookup left. |
| Intake.AddAppendsOneRow | server.js:123-134 | On success, `[Normalize(email), timestamp]` is appended at the end of the target sheet and nothing else changes, apart from the creation of the target when no id was known. The address was absent before. |
| Intake.SuccessAppendsOneRow | server.js:123-154 | A 200 response means exactly one row `[lowercase(trim(input)), timestamp]` was appended to the cached or configured sheet, or to a new sheet after its header. Every other row and spreadsheet is unchanged, and no row of the target matched before. |
| Intake.DuplicateIffSameAddress | server.js:116-121 | With an id known and no upstream failure, a valid request is refused as a duplicate exactly when some non-empty column-A value lowercases to the normalised address. |
| Intake.KnownSheetDecides | server.js:104-157 | For a valid input with a working first token and a known spreadsheet id, the response is fully determined. A missing spreadsheet or a failed read gives 500. A matching row gives "Email already submitted!". Otherwise it is 200 when the append answers and 500 when it throws. |
| Intake.CreationPathDecides | server.js:104-134 | For a valid input with a working first token and no spreadsheet id, a spreadsheet is created exactly when the second token lookup works and the service returns an id. The response is 200 exactly when that id is non-empty and both Sheets calls answer, and 500 otherwise. |
| Intake.DuplicateIffAnySame | server.js:111-121 | When a spreadsheet id is known and `addEmailToSheet` does not throw, that id exists and a duplicate is reported exactly when the scan of its rows finds the normalised address. |
| Intake.CreationOnlyWithoutId | server.js:104-109 | A creation happens only when no id is cached or configured. The new spreadsheet starts with the header row and its id becomes the cached id. Otherwise the cached id never changes. |
| Intake.UniqueAppend | server.js:116-132 | Appending a lowercase address that no row matches keeps a sheet free of two rows with equal lowercase column A. |
| Intake.AllUniqueUpdate | server.js:125-132 | Replacing one sheet by a unique one keeps every sheet unique. |
| Intake.AppendKeepsAllUnique | server.js:116-132 | Both shapes of a successful append (after a header in a new spreadsheet, or at the end of a known one) keep every sheet unique. |
| Intake.SuccessPreservesUnique | server.js:116-132 | An accepted submission keeps every sheet unique. |
| Intake.SubmitPreservesUnique | server.js:116-132 | Every request keeps every sheet free of two rows with equal lowercase column A. |
| Intake.PaddedMixedCaseExample | server.js:101 | `" Foo@Example.com "` is stored as `"foo@example.com"`. |
| IntakeRun.Run | server.js:137-162 | The handler applied to requests in order, giving one response per request. The contract gives only the shape of the trace. What a run guarantees is stated by `IntakeRun.RunCreatesAtMostOnce`, `IntakeRun.RunPreservesUnique` and `IntakeRun.RunKeepsRecorded`. |
| IntakeRun.RunCreatesAtMostOnce | server.js:104-109 | If created ids are non-empty, a sequential run creates at most one spreadsheet. It creates none when an id is already known, and the id in use then never changes. |
| IntakeRun.RunPreservesUnique | server.js:116-132 | Sheet uniqueness holds through any sequence of requests. |
| IntakeRun.AcceptedIsRecorded | server.js:125-132 | After an accepted submission the id in use is known, and its sheet holds a row matching the normalised address. |
| IntakeRun.RecordedIsRefused | server.js:116-121 | A valid input whose normal form is already in the sheet in use is refused as a duplicate unless the request fails upstream. |
| IntakeRun.ResubmissionIsRefused | server.js:116-121 | An address accepted once is refused by the immediately following request in any spelling that normalises alike (other case, surrounding whitespace), unless that request fails upstream. `IntakeRun.ResubmissionAfterRunIsRefused` extends this past any requests in between. |
| IntakeRun.RecordedStays | server.js:116-132 | Once the sheet in use holds a row for an address, any request keeps the same id in use and a row for that address in its sheet: a request only appends, never rewrites a row or switches sheets. |
| IntakeRun.RunKeepsRecorded | server.js:116-132 | The same through any sequence of requests. |
| IntakeRun.ResubmissionAfterRunIsRefused | server.js:116-121 | An address accepted once is refused by any later request, after any number of other requests, in any spelling that normalises alike, unless that request fails upstream. |
| IntakeRun.NormalizeKeepsPattern | server.js:145-147 | An input and its normal form get the same answer from the test. |
| AppsScript.AsTested | script.js:13-16 | The string the shape test sees: the parameter itself, or "undefined" when it is missing. This function has no contract of its own; `AppsScript.DoPost` and `AppsScript.MissingEmailIsInvalid` are stated in terms of it. |
| AppsScript.ReplyText | script.js:9-28 | The unauthorised decision sends "Unauthorized", the invalid one "Invalid email address." and the duplicate one "Email already submitted.". A sheet failure or an address that goes on to the append gets no reply here. |
| AppsScript.DoPost | script.js:5-29 | "Unauthorized" is sent exactly when the secret differs from `SECRET_KEY`. "Invalid" is sent exactly when, authorised, the raw email fails the test. "Already submitted" is sent exactly when a column-A cell is the identical string. Otherwise the address goes on unchanged and untrimmed. |
| AppsScript.MissingEmailIsInvalid | script.js:13-18 | A missing email parameter is tested as "undefined" and refused as invalid. |
| AppsScript.RefusalReadsNoSheet | script.js:8-18 | The secret and shape refusals are the same whatever the sheet holds. |
| AppsScript.ColumnOf | script.js:25 | For comparing the two variants, column A is taken to hold the same values for both, read as text: one text cell per server row. |
| AppsScript.ExactDuplicateIsServerDuplicate | script.js:26 | For an address without surrounding whitespace, an exact match here is also a match for the server's case-insensitive test. |
| AppsScript.CaseVariantDiverges | script.js:26 | Any valid, trimmed address whose lowercase equals that of a stored value, when no stored value is identical to it, is a duplicate for the server but goes on to the append here. |
| AppsScript.CaseVariantIsServerDuplicate | server.js:117 | For a trimmed address, a stored non-empty value with the same lowercase is a match for the server. |
| AppsScript.NoIdenticalValueProceeds | script.js:16-29 | An authorised, valid address identical to no stored value goes on to the append, unchanged. |
| AppsScript.CaseVariantExample | script.js:26 | `"ann@example.com"` against a stored `"Ann@Example.com"` is a duplicate for the server but goes on to the append here. |
| AppsScript.PaddedValueDiverges | script.js:26 | `" a@b.co"` against an identical stored value is a duplicate here but not for the server, which trims the input. |
| AppsScript.VariantsAgreeOnShape | script.js:16 | For every non-empty input, the server answers "Invalid email address" exactly when this variant answers "Invalid email address.". |

## Left out

- Express set-up, the cache-control middleware, static file serving, the
  `GET /` route and `listen`: HTTP plumbing with no decision in it.
- The real network calls: the connector fetch, `googleapis` and the Apps
  Script services (`SpreadsheetApp`, `ContentService`). Their results are
  oracle parameters. A rejected token counts as one more way a Sheets call
  throws: creation returns no id, or the read or append fails.
- `new Date().toLocaleString()` and `Date.now()`: the timestamp is an opaque
  string and the clock a parameter, read once per request.
- The `USER_ENTERED` value-input option: a stored address is read back as
  the string that was written. Sheets' own reformatting of values is not
  modelled.
- Unicode case mapping: lowercasing touches ASCII letters only. Whitespace
  is the full ECMAScript WhiteSpace and LineTerminator set.
- The connector reply: one reply per request serves every fetch in it.
  Differing replies to the two fetches of one request are not modelled.
- Concurrency: requests run one after another, so the races of concurrent
  read-then-append and of lazy creation are outside the model.
- The request body itself: it is taken to be the object the JSON and
  form parsers produce, so a missing `email` key is `Absent`. A request whose
  body was never parsed, where destructuring would throw, is not modelled.
- Console logging, and the spreadsheet's title and sheet name.
- The rest of `doPost`: the file ends at the duplicate test, so its append,
  reply and `catch` are unknown. An exception while opening the sheet is
  kept as an outcome of its own.
- The landing-page button component: styling and animation only.
- AppsScript.ColumnOf: the comparison lemmas read both variants' column A
  as the same text values. In fact `getValues()` returns typed cells
  (numbers, booleans, dates) and an empty string for every blank row of the
  grid. `values.get` returns formatted strings and omits trailing blanks.
  The two files also name different spreadsheets. `DoPost` itself accepts
  any cells, `OtherCell` included.
- Intake.ResolveSpreadsheet: the id the service gives a created spreadsheet
  is assumed fresh. An id that already names a known spreadsheet replaces
  its rows with the header row.
- Strings are sequences of Unicode scalar values. JavaScript strings are
  UTF-16 code units, so a lone surrogate cannot be represented. Such a code
  unit is matched by `\S` and kept by `trim`.

=== FILE: apps_script.dfy ===
/**
 The Apps Script variant of the intake (`doPost`), up to its decision to
 append: the shared secret is checked first, then the email shape (on the
 raw parameter, untrimmed), then column A is scanned for an exact,
 case-sensitive match. What follows that decision is not part of this model.
 */
module AppsScript {
  import opened Base
  import opened Text
  import Intake

  /** `SECRET_KEY`. */
  const SecretKey := "YOUR_SECRET_KEY"

  /** A column-A value as `getValues()` returns it: a string, or a number,
      boolean or date, none of which is `===` to a string. */
  datatype Cell = TextCell(s: string) | OtherCell

  /** `e.parameter.secret` and `e.parameter.email`, when present. */
  datatype Params = Params(secret: Option<string>, email: Option<string>)

  /** Where the visible part of `doPost` leaves a request: one of its three
      early replies, an exception from opening the spreadsheet or the sheet,
      or on to the append with the address as received. */
  datatype Decision = Unauthorized | InvalidEmail | AlreadySubmitted | SheetFailure | Proceed(email: string)

  /** The text output of an early reply. */
  function ReplyText(d: Decision): (t: Option<string>)
    ensures t.Some? <==> d in {Unauthorized, InvalidEmail, AlreadySubmitted}
    ensures d == Unauthorized ==> t == Some("Unauthorized")
    ensures d == InvalidEmail ==> t == Some("Invalid email address.")
    ensures d == AlreadySubmitted ==> t == Some("Email already submitted.")
  {
    match d
    case Unauthorized => Some("Unauthorized")
    case InvalidEmail => Some("Invalid email address.")
    case AlreadySubmitted => Some("Email already submitted.")
    case _ => None
  }

  /** What `RegExp.prototype.test` tests when given the parameter: the string
      itself, or "undefined" when the parameter is missing. */
  function AsTested(v: Option<string>): string {
    match v
    case None => "undefined"
    case Some(s) => s
  }

  /** `doPost(e)` up to the append. `column` is column A of the "User Emails"
      sheet, or `None` when opening the spreadsheet or the sheet throws. */
  function DoPost(params: Params, column: Option<seq<Cell>>): (d: Decision)
    ensures d == Unauthorized <==> params.secret != Some(SecretKey)
    ensures d == InvalidEmail <==> params.secret == Some(SecretKey) && !EmailPattern(AsTested(params.email))
    ensures d == SheetFailure <==> params.secret == Some(SecretKey) && EmailPattern(AsTested(params.email)) && column.None?
    ensures d == AlreadySubmitted <==>
              && params.secret == Some(SecretKey) && EmailPattern(AsTested(params.email))
              && column.Some? && TextCell(AsTested(params.email)) in column.value
    // the address goes on exactly as received: no trimming, no lowercasing
    ensures d.Proceed? ==> params.email == Some(d.email) && column.Some? && TextCell(d.email) !in column.value
  {
    if params.secret != Some(SecretKey) then Unauthorized
    else
      var email := AsTested(params.email);
      if !EmailPattern(email) then InvalidEmail
      else
        match column
        case None => SheetFailure
        case Some(cells) => if TextCell(email) in cells then AlreadySubmitted else Proceed(email)
  }

  /** A missing email parameter is tested as the string "undefined", which
      has no `@`: the request is refused as invalid. */
  lemma MissingEmailIsInvalid(secret: Option<string>, column: Option<seq<Cell>>)
    requires secret == Some(SecretKey)
    ensures DoPost(Params(secret, None), column) == InvalidEmail
  {
    if EmailPattern("undefined") {
      PatternNeedsAtAndDot("undefined");
    }
  }

  /** Before the shape test passes, the sheet is not consulted: the secret
      and shape refusals are the same whatever the sheet holds. */
  lemma RefusalReadsNoSheet(params: Params, column: Option<seq<Cell>>, column': Option<seq<Cell>>)
    requires DoPost(params, column) in {Unauthorized, InvalidEmail}
    ensures DoPost(params, column') == DoPost(params, column)
  {
  }

  /** Column A of the same sheet as the two variants read it. */
  function ColumnOf(rows: seq<Intake.Row>): (c: seq<Cell>)
    ensures |c| == |rows|
    ensures forall i | 0 <= i < |rows| :: c[i] == TextCell(rows[i].a)
  {
    seq(|rows|, i requires 0 <= i < |rows| => TextCell(rows[i].a))
  }

  /** On an address without surrounding whitespace, an exact match found by
      this variant is also a match for the server's case-insensitive test. */
  lemma ExactDuplicateIsServerDuplicate(rows: seq<Intake.Row>, e: string)
    requires e != "" && Trim(e) == e
    requires TextCell(e) in ColumnOf(rows)
    ensures Intake.AnySame(rows, Intake.Normalize(e))
  {
    var i :| 0 <= i < |rows| && ColumnOf(rows)[i] == TextCell(e);
    assert Intake.SameAddress(rows[i], Intake.Normalize(e));
  }

  /** The converse fails on letter case: a valid, trimmed address whose
      lowercase equals that of a stored value it is not identical to is a
      duplicate for the server and goes on to the append here. */
  lemma CaseVariantDiverges(rows: seq<Intake.Row>, e: string, i: nat)
    requires EmailPattern(e) && Trim(e) == e
    requires i < |rows| && rows[i].a != "" && ToLower(rows[i].a) == ToLower(e)
    requires forall j | 0 <= j < |rows| :: rows[j].a != e
    ensures Intake.AnySame(rows, Intake.Normalize(e))
    ensures DoPost(Params(Some(SecretKey), Some(e)), Some(ColumnOf(rows))) == Proceed(e)
  {
    CaseVariantIsServerDuplicate(rows, e, i);
    NoIdenticalValueProceeds(rows, e);
  }

  /** The server's side of the divergence: equal lowercase is a match. */
  lemma CaseVariantIsServerDuplicate(rows: seq<Intake.Row>, e: string, i: nat)
    requires Trim(e) == e
    requires i < |rows| && rows[i].a != "" && ToLower(rows[i].a) == ToLower(e)
    ensures Intake.AnySame(rows, Intake.Normalize(e))
  {
    assert Intake.SameAddress(rows[i], Intake.Normalize(e));
  }

  /** This variant's side: a valid address identical to no stored value goes
      on to the append. */
  lemma NoIdenticalValueProceeds(rows: seq<Intake.Row>, e: string)
    requires EmailPattern(e)
    requires forall j | 0 <= j < |rows| :: rows[j].a != e
    ensures DoPost(Params(Some(SecretKey), Some(e)), Some(ColumnOf(rows))) == Proceed(e)
  {
    assert TextCell(e) !in ColumnOf(rows);
  }

  /** An instance of the divergence: "ann@example.com" against a stored
      "Ann@Example.com". */
  lemma CaseVariantExample()
    ensures var rows := [Intake.Row("Ann@Example.com", "1/1/2025")];
            var e := "ann@example.com";
            && Intake.AnySame(rows, Intake.Normalize(e))
            && DoPost(Params(Some(SecretKey), Some(e)), Some(ColumnOf(rows))) == Proceed(e)
  {
    var rows := [Intake.Row("Ann@Example.com", "1/1/2025")];
    var e := "ann@example.com";
    assert MatchAt(e, 3, 11);
    assert TrimBounds(e, 0, |e|);
    TrimUnique(e, 0, |e|);
    assert e[0..|e|] == e;
    assert Intake.SameAddress(rows[0], Intake.Normalize(e));
    assert ColumnOf(rows)[0] != TextCell(e);
  }

  /** It fails on whitespace as well, the other way round: a value stored
      with a leading space is an exact match here but, once the server trims
      the input, no match there. */
  lemma PaddedValueDiverges()
    ensures var rows := [Intake.Row(" a@b.co", "1/1/2025")];
            var e := " a@b.co";
            && !Intake.AnySame(rows, Intake.Normalize(e))
            && DoPost(Params(Some(SecretKey), Some(e)), Some(ColumnOf(rows))) == AlreadySubmitted
  {
    var rows := [Intake.Row(" a@b.co", "1/1/2025")];
    var e := " a@b.co";
    assert MatchAt(e, 2, 4);
    assert TrimBounds(e, 1, |e|);
    TrimUnique(e, 1, |e|);
    assert |Intake.Normalize(e)| == 6;
    assert ColumnOf(rows)[0] == TextCell(e);
  }

  /** Both variants accept the same non-empty inputs: the server tests the
      trimmed input, this variant the raw one, and trimming never changes
      the outcome of the test. (An empty input is "required" for the server
      and "invalid" here.) */
  lemma VariantsAgreeOnShape(st: Intake.State, cfg: Intake.Config, o: Intake.Oracle, s: string, column: Option<seq<Cell>>)
    requires s != ""
    ensures Intake.Submit(st, cfg, o, Intake.Str(s)).response == Intake.Invalid
            <==> DoPost(Params(Some(SecretKey), Some(s)), column) == InvalidEmail
  {
  }
}

=== FILE: base.dfy ===
/** Small shared datatypes. */
module Base {

  /** A value that may be missing: JavaScript's `undefined` (or `null`) versus a present value. */
  datatype Option<+T> = None | Some(value: T)

  /** The outcome of a step that may throw: its value, or the error it raised. */
  datatype Result<+T, +E> = Ok(value: T) | Err(error: E)
}

=== FILE: intake.dfy ===
/**
 The email-intake server: the `POST /submit-email` handler and
 `addEmailToSheet`, as pure transitions of an explicit state.

 The state is the process memory (the token cache and the cached spreadsheet
 id) together with the remote spreadsheets, each seen as the rows of its
 "User Emails" sheet. What the outside world decides during one request (the
 clock, the connector's reply, the id a created spreadsheet receives, whether
 the Sheets read and append go through, the formatted timestamp) comes in as
 an `Oracle`.
 */
module Intake {
  import opened Base
  import opened Text
  import opened TokenCache

  /** A row of the "User Emails" sheet: column A (the address) and column B (the date). */
  datatype Row = Row(a: string, b: string)

  /** The row a newly created spreadsheet starts with. */
  const HeaderRow := Row("Email Address", "Date Submitted")

  /** The spreadsheets the process can reach, by id. */
  type Workbooks = map<string, seq<Row>>

  /** Process memory: `connectionSettings` and `cachedSpreadsheetId` ("" for null). */
  datatype Process = Process(connection: Option<Descriptor>, cachedSpreadsheetId: string)

  /** The environment: `SPREADSHEET_ID || ''` and the two identity variables. */
  datatype Config = Config(spreadsheetId: string, identity: Identity)

  /** What the outside world decides during one request: the clock, the
      connector's reply to every token fetch of the request, the id the
      spreadsheet service gives a created spreadsheet (`None`: creation
      fails), whether `values.get` and `values.append` answer or throw
      (network, quota, a missing "User Emails" sheet), and the formatted
      submission time. */
  datatype Oracle = Oracle(now: nat, reply: Reply, createdId: Option<string>,
                           readOk: bool, appendOk: bool, timestamp: string)

  /** `req.body.email`: missing (undefined or null), a string, or some other
      JSON value, which is truthy or falsy. */
  datatype EmailField = Absent | Str(s: string) | NonText(truthy: bool)

  datatype State = State(process: Process, books: Workbooks)

  /** An HTTP response: status and the JSON body `{success, message}`. */
  datatype Response = Response(status: int, success: bool, message: string)

  const Required := Response(400, false, "Email is required")
  const Invalid := Response(400, false, "Invalid email address")
  const AlreadySubmitted := Response(400, false, "Email already submitted!")
  const Submitted := Response(200, true, "Email submitted successfully!")
  const ServerError := Response(500, false, "Server error. Please try again.")

  /** How `addEmailToSheet` ends: it appended, it found the address, or it threw. */
  datatype AddResult = Added | Duplicate | Threw

  /** The end of a step, with `created` telling whether a spreadsheet was created. */
  datatype AddOutcome = AddOutcome(result: AddResult, state: State, created: bool)
  datatype Outcome = Outcome(response: Response, state: State, created: bool)

  /** The address as stored and compared: trimmed, then lowercased. */
  function Normalize(s: string): (n: string)
    ensures |n| <= |s|
    ensures forall i | 0 <= i < |n| :: !('A' <= n[i] <= 'Z')
    ensures n != [] ==> !IsSpace(n[0]) && !IsSpace(n[|n| - 1])
  {
    LowerKeepsSpaces(Trim(s));
    ToLower(Trim(s))
  }

  /** The handler trims before `addEmailToSheet` trims again; the second trim
      changes nothing. */
  lemma NormalizeAfterTrim(s: string)
    ensures Normalize(Trim(s)) == Normalize(s)
  {
    TrimIdempotent(s);
  }

  /** A normalised address is its own normal form. */
  lemma NormalizeIdempotent(s: string)
    ensures Normalize(Normalize(s)) == Normalize(s)
  {
    TrimLowerCommute(Trim(s));
    TrimIdempotent(s);
    ToLowerIdempotent(Trim(s));
  }

  /** The id in use before any creation: `cachedSpreadsheetId || SPREADSHEET_ID`;
      "" means a spreadsheet has to be created. */
  function SpreadsheetId(p: Process, cfg: Config): (id: string)
    ensures id == "" <==> p.cachedSpreadsheetId == "" && cfg.spreadsheetId == ""
    ensures p.cachedSpreadsheetId != "" ==> id == p.cachedSpreadsheetId
    ensures p.cachedSpreadsheetId == "" ==> id == cfg.spreadsheetId
  {
    if p.cachedSpreadsheetId != "" then p.cachedSpreadsheetId else cfg.spreadsheetId
  }

  /** The test `row[0] && row[0].toLowerCase() === normalizedEmail`. */
  predicate SameAddress(row: Row, n: string) {
    row.a != "" && ToLower(row.a) == n
  }

  /** `emails.some(...)`: a left-to-right scan of column A. */
  function AnySame(rows: seq<Row>, n: string): (b: bool)
    ensures b <==> exists i | 0 <= i < |rows| :: SameAddress(rows[i], n)
  {
    if rows == [] then false
    else if SameAddress(rows[0], n) then true
    else
      var b := AnySame(rows[1..], n);
      assert forall i | 1 <= i < |rows| :: rows[1..][i - 1] == rows[i];
      b
  }

  /** Whether a token lets a Sheets call through: with an undefined token the
      client holds no credentials and every call throws. */
  predicate Authorized(token: string) {
    token != ""
  }

  /** A valid address never matches the header row, so a newly created
      spreadsheet holds no duplicate of it. */
  lemma HeaderNeverSame(t: string)
    requires EmailPattern(t)
    ensures !SameAddress(HeaderRow, Normalize(t))
  {
    NormalizedHasAt(t);
    NoAtNeverSame(HeaderRow, Normalize(t));
  }

  /** A normalised valid address still contains an `@`. */
  lemma NormalizedHasAt(t: string)
    requires EmailPattern(t)
    ensures '@' in Normalize(t)
  {
    PatternSurvivesTrim(t);
    PatternIgnoresCase(Trim(t));
    PatternNeedsAtAndDot(Normalize(t));
  }

  /** A column-A value without `@` never matches an address with one:
      lowercasing produces an `@` only where there was one. */
  lemma NoAtNeverSame(row: Row, n: string)
    requires '@' !in row.a && '@' in n
    ensures !SameAddress(row, n)
  {
  }

  /** The read of column A, the duplicate test, and the append. The read
      throws without a token, for an empty or unknown id, or when the service
      fails; the append throws when the service fails and then adds nothing. */
  function CheckAndAppend(st: State, id: string, token: string, n: string, o: Oracle, created: bool): (a: AddOutcome)
    ensures a.created == created && a.state.process == st.process
    ensures a.result.Added? <==>
              Authorized(token) && id != "" && id in st.books && o.readOk && !AnySame(st.books[id], n) && o.appendOk
    ensures a.result.Duplicate? <==>
              Authorized(token) && id != "" && id in st.books && o.readOk && AnySame(st.books[id], n)
    ensures a.result.Added? ==> a.state.books == st.books[id := st.books[id] + [Row(n, o.timestamp)]]
    ensures !a.result.Added? ==> a.state.books == st.books
  {
    if !Authorized(token) || id == "" || id !in st.books || !o.readOk then AddOutcome(Threw, st, created)
    else if AnySame(st.books[id], n) then AddOutcome(Duplicate, st, created)
    else if !o.appendOk then AddOutcome(Threw, st, created)
    else AddOutcome(Added, st.(books := st.books[id := st.books[id] + [Row(n, o.timestamp)]]), created)
  }

  /** Where `addEmailToSheet` stands once it knows which spreadsheet to use,
      or the state it threw in. */
  datatype Resolution = Resolved(id: string, state: State, created: bool) | Unresolved(state: State)

  /** The spreadsheet-id step: `cachedSpreadsheetId || SPREADSHEET_ID`, or
      else `createSpreadsheet()` (which looks up a token of its own) and
      caching the id it returns. */
  function ResolveSpreadsheet(st: State, cfg: Config, o: Oracle): (r: Resolution)
    // a known id is used as is: no token lookup, no creation, nothing changes
    ensures SpreadsheetId(st.process, cfg) != "" ==> r == Resolved(SpreadsheetId(st.process, cfg), st, false)
    // otherwise the outcome is a created spreadsheet that starts with the header row ...
    ensures r.Resolved? && r.created ==>
      && SpreadsheetId(st.process, cfg) == ""
      && o.createdId == Some(r.id)
      && r.state.books == st.books[r.id := [HeaderRow]]
      && r.state.process.cachedSpreadsheetId == r.id
    // ... or a throw that leaves the spreadsheets and the cached id alone
    ensures r.Resolved? ==> r.created || r.state == st
    ensures r.Unresolved? ==> r.state.books == st.books && r.state.process.cachedSpreadsheetId == st.process.cachedSpreadsheetId
    // the token cache is left as the creation's own lookup leaves it
    ensures r.state.process.connection ==
              if SpreadsheetId(st.process, cfg) != "" then st.process.connection
              else GetAccessToken(st.process.connection, o.now, cfg.identity, o.reply).cache
    // a creation with a working token and an id from the service goes through
    ensures SpreadsheetId(st.process, cfg) == "" && o.createdId.Some?
            && GetAccessToken(st.process.connection, o.now, cfg.identity, o.reply).token.Ok?
            && GetAccessToken(st.process.connection, o.now, cfg.identity, o.reply).token.value != ""
            ==> r.Resolved? && r.created
  {
    var id := SpreadsheetId(st.process, cfg);
    if id != "" then Resolved(id, st, false)
    else
      var lookup := GetAccessToken(st.process.connection, o.now, cfg.identity, o.reply);
      var p := st.process.(connection := lookup.cache);
      if lookup.token.Err? || !Authorized(lookup.token.value) || o.createdId.None? then
        Unresolved(State(p, st.books))
      else
        var newId := o.createdId.value;
        Resolved(newId, State(p.(cachedSpreadsheetId := newId), st.books[newId := [HeaderRow]]), true)
  }

  /** `addEmailToSheet(email)`: normalise, look up a token, resolve the
      spreadsheet, then read, test and append. */
  function AddEmailToSheet(st: State, cfg: Config, o: Oracle, email: string): (a: AddOutcome)
    ensures a.created ==> SpreadsheetId(st.process, cfg) == "" && o.createdId.Some?
    ensures a.created ==> a.state.process.cachedSpreadsheetId == o.createdId.value
    ensures !a.created ==> a.state.process.cachedSpreadsheetId == st.process.cachedSpreadsheetId
    // the token cache is what the first lookup left, and on the creation path
    // what the second lookup then left
    ensures var first := GetAccessToken(st.process.connection, o.now, cfg.identity, o.reply);
            a.state.process.connection ==
              if first.token.Ok? && SpreadsheetId(st.process, cfg) == ""
              then GetAccessToken(first.cache, o.now, cfg.identity, o.reply).cache
              else first.cache
  {
    var n := Normalize(email);
    var first := GetAccessToken(st.process.connection, o.now, cfg.identity, o.reply);
    var st1 := st.(process := st.process.(connection := first.cache));
    if first.token.Err? then AddOutcome(Threw, st1, false)
    else
      match ResolveSpreadsheet(st1, cfg, o)
      case Unresolved(st2) => AddOutcome(Threw, st2, false)
      case Resolved(id, st2, created) => CheckAndAppend(st2, id, first.token.value, n, o, created)
  }

  /** Unless it appends, `addEmailToSheet` changes no spreadsheet, except for
      one it created, which then holds just the header row. */
  lemma NoAppendNoChange(st: State, cfg: Config, o: Oracle, email: string)
    ensures var a := AddEmailToSheet(st, cfg, o, email);
            !a.result.Added? ==>
              || a.state.books == st.books
              || (a.created && o.createdId.Some? && a.state.books == st.books[o.createdId.value := [HeaderRow]])
  {
  }

  /** A duplicate is only ever found in a spreadsheet that existed before the
      request, which is left unchanged: a created one holds just the header
      row, which no valid address matches. */
  lemma DuplicateOnlyInKnownSheet(st: State, cfg: Config, o: Oracle, email: string)
    requires EmailPattern(email)
    ensures var a := AddEmailToSheet(st, cfg, o, email);
            a.result.Duplicate? ==> !a.created && a.state.books == st.books
  {
    HeaderNeverSame(email);
    assert !AnySame([HeaderRow], Normalize(email));
  }

  predicate Falsy(field: EmailField) {
    field.Absent? || field == Str("") || field == NonText(false)
  }

  /** The `POST /submit-email` handler. */
  function Submit(st: State, cfg: Config, o: Oracle, field: EmailField): (out: Outcome)
    ensures out.response in {Required, Invalid, AlreadySubmitted, Submitted, ServerError}
    ensures out.response.success <==> out.response.status == 200
    ensures out.response == Required <==> Falsy(field)
    // the shape test on the trimmed input agrees with the test on the raw one
    ensures out.response == Invalid <==> field.Str? && field.s != "" && !EmailPattern(field.s)
    ensures out.response in {Required, Invalid} ==> out.state == st && !out.created
    ensures out.response in {AlreadySubmitted, Submitted} ==> field.Str? && field.s != "" && EmailPattern(field.s)
    ensures out.response == AlreadySubmitted ==> out.state.books == st.books && !out.created
    // a request that never reaches `addEmailToSheet` changes nothing
    ensures !(field.Str? && field.s != "" && EmailPattern(field.s)) ==> out.state == st && !out.created
    // a failed Sheets call appends nothing; only a spreadsheet created
    // before the failure, holding the header row, can be new
    ensures out.response == ServerError ==>
              || out.state.books == st.books
              || (out.created && o.createdId.Some? && out.state.books == st.books[o.createdId.value := [HeaderRow]])
  {
    match field
    case Absent => Outcome(Required, st, false)
    case NonText(truthy) =>
      // a truthy non-string has no `trim` method: the call throws
      if truthy then Outcome(ServerError, st, false) else Outcome(Required, st, false)
    case Str(s) =>
      if s == "" then Outcome(Required, st, false)
      else
        var t := Trim(s);
        PatternSurvivesTrim(s);
        if !EmailPattern(t) then Outcome(Invalid, st, false)
        else
          var a := AddEmailToSheet(st, cfg, o, t);
          DuplicateOnlyInKnownSheet(st, cfg, o, t);
          NoAppendNoChange(st, cfg, o, t);
          var response := match a.result
            case Added => Submitted
            case Duplicate => AlreadySubmitted
            case Threw => ServerError;
          Outcome(response, a.state, a.created)
  }

  // ---------------------------------------------------------------------------
  // Properties of one request
  // ---------------------------------------------------------------------------

  /** A missing or falsy email, or one that fails the shape test, is answered
      without looking at anything else: the same response for every state,
      environment and oracle, and nothing changes. */
  lemma RejectionReadsNothing(st: State, cfg: Config, o: Oracle, st': State, cfg': Config, o': Oracle, field: EmailField)
    requires Submit(st, cfg, o, field).response in {Required, Invalid}
    ensures Submit(st', cfg', o', field) == Outcome(Submit(st, cfg, o, field).response, st', false)
  {
  }

  /** A non-empty input made only of whitespace is reported as invalid, not as missing. */
  lemma WhitespaceOnlyIsInvalid(st: State, cfg: Config, o: Oracle, s: string)
    requires s != "" && AllSpace(s)
    ensures Submit(st, cfg, o, Str(s)).response == Invalid
  {
    NoPatternInSpaces(s);
  }

  /** When the cache is stale and neither identity variable is set, the
      request fails with the generic server error before any fetch or sheet
      access, and nothing changes. */
  lemma NoIdentityIsServerError(st: State, cfg: Config, o: Oracle, s: string)
    requires s != "" && EmailPattern(s)
    requires !IsFresh(st.process.connection, o.now) && IdentityHeader(cfg.identity).None?
    ensures Submit(st, cfg, o, Str(s)) == Outcome(ServerError, st, false)
  {
    PatternSurvivesTrim(s);
  }

  /** `addEmailToSheet` on success: one row `[Normalize(email), timestamp]`
      at the end of the target sheet, nothing else changed but the creation
      of the target when no id was known. */
  lemma AddAppendsOneRow(st: State, cfg: Config, o: Oracle, email: string)
    requires AddEmailToSheet(st, cfg, o, email).result.Added?
    ensures var a := AddEmailToSheet(st, cfg, o, email);
            var row := Row(Normalize(email), o.timestamp);
            var id := SpreadsheetId(st.process, cfg);
            && (a.created ==>
                  && o.createdId.Some?
                  && a.state.books == st.books[o.createdId.value := [HeaderRow, row]])
            && (!a.created ==>
                  && id in st.books
                  && (forall i | 0 <= i < |st.books[id]| :: !SameAddress(st.books[id][i], row.a))
                  && a.state.books == st.books[id := st.books[id] + [row]])
  {
    var a := AddEmailToSheet(st, cfg, o, email);
    if a.created {
      assert [HeaderRow] + [Row(Normalize(email), o.timestamp)] == [HeaderRow, Row(Normalize(email), o.timestamp)];
    }
  }

  /** The token cache a request leaves behind for the next one: what the
      first lookup of a valid request left (a second lookup during creation
      settles on the same cache), and otherwise nothing changes at all. */
  lemma CacheAfterRequest(st: State, cfg: Config, o: Oracle, field: EmailField)
    ensures var out := Submit(st, cfg, o, field);
            if field.Str? && field.s != "" && EmailPattern(field.s)
            then out.state.process.connection == GetAccessToken(st.process.connection, o.now, cfg.identity, o.reply).cache
            else out.state == st
  {
    LookupSettles(st.process.connection, o.now, cfg.identity, o.reply);
    if field.Str? && field.s != "" {
      PatternSurvivesTrim(field.s);
    }
  }

  /** Whatever makes the first token lookup throw (no identity, an
      unreachable connector, a descriptor without a token) ends the request
      with the generic server error; no spreadsheet is touched, but the token
      cache keeps what the lookup left in it. */
  lemma TokenErrorIsServerError(st: State, cfg: Config, o: Oracle, s: string)
    requires s != "" && EmailPattern(s)
    requires GetAccessToken(st.process.connection, o.now, cfg.identity, o.reply).token.Err?
    ensures var lookup := GetAccessToken(st.process.connection, o.now, cfg.identity, o.reply);
            Submit(st, cfg, o, Str(s)) == Outcome(ServerError, st.(process := st.process.(connection := lookup.cache)), false)
  {
    PatternSurvivesTrim(s);
  }

  /** A successful submission appends exactly one row, `[address, timestamp]`
      with the address trimmed once and lowercased, at the end of the target
      sheet; every other row and every other spreadsheet stays as it was. The
      target is the cached or configured spreadsheet, or else the one just
      created, which then holds the header row before the new row. The
      address was not in the target sheet before. */
  lemma SuccessAppendsOneRow(st: State, cfg: Config, o: Oracle, s: string)
    requires Submit(st, cfg, o, Str(s)).response == Submitted
    ensures var out := Submit(st, cfg, o, Str(s));
            var row := Row(Normalize(s), o.timestamp);
            var id := SpreadsheetId(st.process, cfg);
            && (out.created ==>
                  && o.createdId.Some?
                  && out.state.books == st.books[o.createdId.value := [HeaderRow, row]])
            && (!out.created ==>
                  && id in st.books
                  && (forall i | 0 <= i < |st.books[id]| :: !SameAddress(st.books[id][i], row.a))
                  && out.state.books == st.books[id := st.books[id] + [row]])
  {
    var t := Trim(s);
    assert AddEmailToSheet(st, cfg, o, t).result.Added?;
    AddAppendsOneRow(st, cfg, o, t);
    NormalizeAfterTrim(s);
  }

  /** With a spreadsheet already known and no upstream failure, the request is
      refused as a duplicate exactly when some non-empty column-A value of
      that spreadsheet lowercases to the normalised address. */
  lemma DuplicateIffSameAddress(st: State, cfg: Config, o: Oracle, s: string)
    requires s != "" && EmailPattern(s)
    requires SpreadsheetId(st.process, cfg) != ""
    requires Submit(st, cfg, o, Str(s)).response != ServerError
    ensures var id := SpreadsheetId(st.process, cfg);
            && id in st.books
            && (Submit(st, cfg, o, Str(s)).response == AlreadySubmitted
                <==> exists i | 0 <= i < |st.books[id]| :: SameAddress(st.books[id][i], Normalize(s)))
  {
    PatternSurvivesTrim(s);
    NormalizeAfterTrim(s);
    DuplicateIffAnySame(st, cfg, o, Trim(s));
  }

  /** `addEmailToSheet` with a known spreadsheet: when it does not throw, it
      reports a duplicate exactly when the scan finds the normalised address. */
  lemma DuplicateIffAnySame(st: State, cfg: Config, o: Oracle, email: string)
    requires SpreadsheetId(st.process, cfg) != ""
    requires !AddEmailToSheet(st, cfg, o, email).result.Threw?
    ensures var id := SpreadsheetId(st.process, cfg);
            && id in st.books
            && (AddEmailToSheet(st, cfg, o, email).result.Duplicate? <==> AnySame(st.books[id], Normalize(email)))
  {
  }

  /** A valid request with a working token and a known spreadsheet id is
      decided by the sheet alone: 500 when the id does not exist or a Sheets
      call throws, a duplicate when the scan finds the address, and an
      acceptance otherwise. */
  lemma KnownSheetDecides(st: State, cfg: Config, o: Oracle, s: string)
    requires s != "" && EmailPattern(s)
    requires GetAccessToken(st.process.connection, o.now, cfg.identity, o.reply).token.Ok?
    requires GetAccessToken(st.process.connection, o.now, cfg.identity, o.reply).token.value != ""
    requires SpreadsheetId(st.process, cfg) != ""
    ensures var id := SpreadsheetId(st.process, cfg);
            Submit(st, cfg, o, Str(s)).response ==
              if id !in st.books || !o.readOk then ServerError
              else if AnySame(st.books[id], Normalize(s)) then AlreadySubmitted
              else if o.appendOk then Submitted
              else ServerError
  {
    PatternSurvivesTrim(s);
    NormalizeAfterTrim(s);
  }

  /** A valid request with a working token and no spreadsheet id creates one
      when the second token lookup works and the service returns an id, and
      is then accepted unless the id is empty or a Sheets call throws: a new
      spreadsheet holds only the header row, which no address matches. */
  lemma CreationPathDecides(st: State, cfg: Config, o: Oracle, s: string)
    requires s != "" && EmailPattern(s)
    requires GetAccessToken(st.process.connection, o.now, cfg.identity, o.reply).token.Ok?
    requires GetAccessToken(st.process.connection, o.now, cfg.identity, o.reply).token.value != ""
    requires SpreadsheetId(st.process, cfg) == ""
    ensures var first := GetAccessToken(st.process.connection, o.now, cfg.identity, o.reply);
            var second := GetAccessToken(first.cache, o.now, cfg.identity, o.reply);
            var creates := second.token.Ok? && second.token.value != "" && o.createdId.Some?;
            var out := Submit(st, cfg, o, Str(s));
            && (out.created <==> creates)
            && out.response == if creates && o.createdId.value != "" && o.readOk && o.appendOk then Submitted else ServerError
  {
    PatternSurvivesTrim(s);
    HeaderNeverSame(Trim(s));
    assert !AnySame([HeaderRow], Normalize(Trim(s)));
  }

  /** The spreadsheet id is only ever set by a creation, a creation happens
      only when neither a cached nor a configured id exists, and the created
      spreadsheet starts with the header row and becomes the cached id. */
  lemma CreationOnlyWithoutId(st: State, cfg: Config, o: Oracle, field: EmailField)
    ensures var out := Submit(st, cfg, o, field);
            && (out.created ==>
                  && SpreadsheetId(st.process, cfg) == ""
                  && o.createdId.Some?
                  && out.state.process.cachedSpreadsheetId == o.createdId.value
                  && o.createdId.value in out.state.books
                  && |out.state.books[o.createdId.value]| > 0
                  && out.state.books[o.createdId.value][0] == HeaderRow)
            && (!out.created ==> out.state.process.cachedSpreadsheetId == st.process.cachedSpreadsheetId)
  {
  }

  /** No two non-empty column-A values of a sheet are equal once lowercased. */
  ghost predicate Unique(rows: seq<Row>) {
    forall i, j | 0 <= i < j < |rows| :: rows[i].a != "" && rows[j].a != "" ==> ToLower(rows[i].a) != ToLower(rows[j].a)
  }

  ghost predicate AllUnique(books: Workbooks) {
    forall id | id in books :: Unique(books[id])
  }

  /** Appending a lowercase address that no row matches keeps a sheet unique. */
  lemma UniqueAppend(rows: seq<Row>, row: Row)
    requires Unique(rows)
    requires row.a != "" && ToLower(row.a) == row.a
    requires forall i | 0 <= i < |rows| :: !SameAddress(rows[i], row.a)
    ensures Unique(rows + [row])
  {
    var rows' := rows + [row];
    forall i, j | 0 <= i < j < |rows'| && rows'[i].a != "" && rows'[j].a != ""
      ensures ToLower(rows'[i].a) != ToLower(rows'[j].a)
    {
      if j == |rows| {
        assert !SameAddress(rows[i], row.a);
      } else {
        assert rows'[i] == rows[i] && rows'[j] == rows[j];
      }
    }
  }

  /** Replacing one sheet by a unique one keeps every sheet unique. */
  lemma AllUniqueUpdate(books: Workbooks, id: string, rows: seq<Row>)
    requires AllUnique(books) && Unique(rows)
    ensures AllUnique(books[id := rows])
  {
  }

  /** A submission never introduces a second row for an address: the
      uniqueness of every sheet is preserved. */
  lemma SubmitPreservesUnique(st: State, cfg: Config, o: Oracle, field: EmailField)
    requires AllUnique(st.books)
    ensures AllUnique(Submit(st, cfg, o, field).state.books)
  {
    var out := Submit(st, cfg, o, field);
    if out.response == Submitted {
      SuccessPreservesUnique(st, cfg, o, field.s);
    } else if field.Str? && field.s != "" && EmailPattern(Trim(field.s)) {
      NoAppendNoChange(st, cfg, o, Trim(field.s));
      assert Unique([HeaderRow]);
      if o.createdId.Some? {
        AllUniqueUpdate(st.books, o.createdId.value, [HeaderRow]);
      }
    }
  }

  /** The appended row keeps every sheet unique. */
  lemma SuccessPreservesUnique(st: State, cfg: Config, o: Oracle, s: string)
    requires AllUnique(st.books)
    requires Submit(st, cfg, o, Str(s)).response == Submitted
    ensures AllUnique(Submit(st, cfg, o, Str(s)).state.books)
  {
    var out := Submit(st, cfg, o, Str(s));
    var row := Row(Normalize(s), o.timestamp);
    SuccessAppendsOneRow(st, cfg, o, s);
    NormalizedHasAt(s);
    ToLowerIdempotent(Trim(s));
    var id := if out.created then o.createdId.value else SpreadsheetId(st.process, cfg);
    AppendKeepsAllUnique(st.books, out.state.books, id, row, out.created);
  }

  /** The two shapes of a successful append, over the spreadsheets alone. */
  lemma AppendKeepsAllUnique(books: Workbooks, books': Workbooks, id: string, row: Row, created: bool)
    requires AllUnique(books)
    requires '@' in row.a && ToLower(row.a) == row.a
    requires created ==> books' == books[id := [HeaderRow, row]]
    requires !created ==> && id in books
                          && (forall i | 0 <= i < |books[id]| :: !SameAddress(books[id][i], row.a))
                          && books' == books[id := books[id] + [row]]
    ensures AllUnique(books')
  {
    if created {
      NoAtNeverSame(HeaderRow, row.a);
      assert Unique([HeaderRow]);
      UniqueAppend([HeaderRow], row);
      assert [HeaderRow] + [row] == [HeaderRow, row];
      AllUniqueUpdate(books, id, [HeaderRow, row]);
    } else {
      UniqueAppend(books[id], row);
      AllUniqueUpdate(books, id, books[id] + [row]);
    }
  }

  /** The example of a padded, mixed-case address: it is stored trimmed and lowercased. */
  lemma PaddedMixedCaseExample()
    ensures Normalize(" Foo@Example.com ") == "foo@example.com"
  {
    var s := " Foo@Example.com ";
    assert TrimBounds(s, 1, 16);
    TrimUnique(s, 1, 16);
    var l := ToLower(s[1..16]);
    assert forall i | 0 <= i < 15 :: l[i] == "foo@example.com"[i];
  }
}

=== FILE: intake_run.dfy ===
/**
 Sequential runs of the intake server: requests handled one after another,
 each starting from the state the previous one left.
 */
module IntakeRun {
  import opened Base
  import opened Text
  import opened Intake

  /** One `POST /submit-email` request with what the outside world decides during it. */
  datatype Request = Request(field: EmailField, oracle: Oracle)

  /** The state after a run, the responses in order, and how many spreadsheets were created. */
  datatype Trace = Trace(state: State, responses: seq<Response>, creations: nat)

  function Run(st: State, cfg: Config, reqs: seq<Request>): (t: Trace)
    ensures |t.responses| == |reqs|
    ensures t.creations <= |reqs|
    decreases |reqs|
  {
    if reqs == [] then Trace(st, [], 0)
    else
      var out := Submit(st, cfg, reqs[0].oracle, reqs[0].field);
      var rest := Run(out.state, cfg, reqs[1..]);
      Trace(rest.state, [out.response] + rest.responses, (if out.created then 1 else 0) + rest.creations)
  }

  /** The spreadsheet service hands out non-empty ids in this run. */
  predicate NonEmptyIds(reqs: seq<Request>) {
    forall k | 0 <= k < |reqs| :: reqs[k].oracle.createdId != Some("")
  }

  /** Lazy creation happens at most once in a run, and never when an id is
      already cached or configured; the id in use, once known, stays. */
  lemma {:induction false} RunCreatesAtMostOnce(st: State, cfg: Config, reqs: seq<Request>)
    requires NonEmptyIds(reqs)
    ensures Run(st, cfg, reqs).creations <= 1
    ensures SpreadsheetId(st.process, cfg) != "" ==>
              && Run(st, cfg, reqs).creations == 0
              && SpreadsheetId(Run(st, cfg, reqs).state.process, cfg) == SpreadsheetId(st.process, cfg)
    decreases |reqs|
  {
    if reqs != [] {
      var out := Submit(st, cfg, reqs[0].oracle, reqs[0].field);
      CreationOnlyWithoutId(st, cfg, reqs[0].oracle, reqs[0].field);
      assert NonEmptyIds(reqs[1..]) by {
        forall k | 0 <= k < |reqs| - 1 ensures reqs[1..][k].oracle.createdId != Some("") {
          assert reqs[1..][k] == reqs[k + 1];
        }
      }
      RunCreatesAtMostOnce(out.state, cfg, reqs[1..]);
      if out.created {
        assert reqs[0].oracle.createdId != Some("");
        assert SpreadsheetId(out.state.process, cfg) != "";
      }
    }
  }

  /** Every sheet stays free of two rows for one address through a whole run. */
  lemma {:induction false} RunPreservesUnique(st: State, cfg: Config, reqs: seq<Request>)
    requires AllUnique(st.books)
    ensures AllUnique(Run(st, cfg, reqs).state.books)
    decreases |reqs|
  {
    if reqs != [] {
      var out := Submit(st, cfg, reqs[0].oracle, reqs[0].field);
      SubmitPreservesUnique(st, cfg, reqs[0].oracle, reqs[0].field);
      RunPreservesUnique(out.state, cfg, reqs[1..]);
    }
  }

  /** An address accepted once is refused the next time, in any spelling that
      normalises alike (other letter case, surrounding whitespace), unless
      that request fails upstream. */
  lemma ResubmissionIsRefused(st: State, cfg: Config, o: Oracle, s: string, o': Oracle, s': string)
    requires Submit(st, cfg, o, Str(s)).response == Submitted
    requires Normalize(s') == Normalize(s)
    requires Submit(Submit(st, cfg, o, Str(s)).state, cfg, o', Str(s')).response != ServerError
    ensures Submit(Submit(st, cfg, o, Str(s)).state, cfg, o', Str(s')).response == AlreadySubmitted
  {
    AcceptedIsRecorded(st, cfg, o, s);
    NormalizeKeepsPattern(s);
    NormalizeKeepsPattern(s');
    RecordedIsRefused(Submit(st, cfg, o, Str(s)).state, cfg, o', s');
  }

  /** An address recorded in the sheet in use stays recorded across any
      request: the id in use does not change, and its sheet still holds a row
      for the address. */
  lemma RecordedStays(st: State, cfg: Config, o: Oracle, field: EmailField, n: string)
    requires SpreadsheetId(st.process, cfg) != ""
    requires SpreadsheetId(st.process, cfg) in st.books
    requires AnySame(st.books[SpreadsheetId(st.process, cfg)], n)
    ensures var out := Submit(st, cfg, o, field);
            var id := SpreadsheetId(st.process, cfg);
            && SpreadsheetId(out.state.process, cfg) == id
            && id in out.state.books
            && AnySame(out.state.books[id], n)
  {
    var out := Submit(st, cfg, o, field);
    var id := SpreadsheetId(st.process, cfg);
    CreationOnlyWithoutId(st, cfg, o, field);
    if out.response == Submitted {
      SuccessAppendsOneRow(st, cfg, o, field.s);
      var i :| 0 <= i < |st.books[id]| && SameAddress(st.books[id][i], n);
      assert out.state.books[id][i] == st.books[id][i];
    }
  }

  /** The same through a whole run: a recorded address is never lost. */
  lemma {:induction false} RunKeepsRecorded(st: State, cfg: Config, reqs: seq<Request>, n: string)
    requires SpreadsheetId(st.process, cfg) != ""
    requires SpreadsheetId(st.process, cfg) in st.books
    requires AnySame(st.books[SpreadsheetId(st.process, cfg)], n)
    ensures var end := Run(st, cfg, reqs).state;
            var id := SpreadsheetId(st.process, cfg);
            && SpreadsheetId(end.process, cfg) == id
            && id in end.books
            && AnySame(end.books[id], n)
    decreases |reqs|
  {
    if reqs != [] {
      var out := Submit(st, cfg, reqs[0].oracle, reqs[0].field);
      RecordedStays(st, cfg, reqs[0].oracle, reqs[0].field, n);
      RunKeepsRecorded(out.state, cfg, reqs[1..], n);
    }
  }

  /** An address accepted once is refused in any later request, after any
      number of requests in between, in any spelling that normalises alike,
      unless that later request fails upstream. */
  lemma ResubmissionAfterRunIsRefused(st: State, cfg: Config, o: Oracle, s: string, reqs: seq<Request>, o': Oracle, s': string)
    requires Submit(st, cfg, o, Str(s)).response == Submitted
    requires Normalize(s') == Normalize(s)
    requires Submit(Run(Submit(st, cfg, o, Str(s)).state, cfg, reqs).state, cfg, o', Str(s')).response != ServerError
    ensures Submit(Run(Submit(st, cfg, o, Str(s)).state, cfg, reqs).state, cfg, o', Str(s')).response == AlreadySubmitted
  {
    var mid := Submit(st, cfg, o, Str(s)).state;
    AcceptedIsRecorded(st, cfg, o, s);
    RunKeepsRecorded(mid, cfg, reqs, Normalize(s));
    NormalizeKeepsPattern(s);
    NormalizeKeepsPattern(s');
    RecordedIsRefused(Run(mid, cfg, reqs).state, cfg, o', s');
  }

  /** After an accepted submission the id in use is known and its sheet holds
      a row for the normalised address. */
  lemma AcceptedIsRecorded(st: State, cfg: Config, o: Oracle, s: string)
    requires Submit(st, cfg, o, Str(s)).response == Submitted
    ensures var books := Submit(st, cfg, o, Str(s)).state.books;
            var id := SpreadsheetId(Submit(st, cfg, o, Str(s)).state.process, cfg);
            id != "" && id in books && AnySame(books[id], Normalize(s))
  {
    var out := Submit(st, cfg, o, Str(s));
    var n := Normalize(s);
    var row := Row(n, o.timestamp);
    SuccessAppendsOneRow(st, cfg, o, s);
    CreationOnlyWithoutId(st, cfg, o, Str(s));
    NormalizedHasAt(s);
    ToLowerIdempotent(Trim(s));
    assert SameAddress(row, n);
    var id := SpreadsheetId(out.state.process, cfg);
    var rows := out.state.books[id];
    assert rows[|rows| - 1] == row;
  }

  /** A valid input whose normal form is already in the sheet in use is
      refused as a duplicate, unless the request fails upstream. */
  lemma RecordedIsRefused(st: State, cfg: Config, o: Oracle, s: string)
    requires SpreadsheetId(st.process, cfg) != ""
    requires SpreadsheetId(st.process, cfg) in st.books
    requires AnySame(st.books[SpreadsheetId(st.process, cfg)], Normalize(s))
    requires EmailPattern(Normalize(s))
    requires Submit(st, cfg, o, Str(s)).response != ServerError
    ensures Submit(st, cfg, o, Str(s)).response == AlreadySubmitted
  {
    NormalizeKeepsPattern(s);
    assert s != "" by {
      if s == "" { TrimUnique(s, 0, 0); }
    }
    DuplicateIffSameAddress(st, cfg, o, s);
  }

  /** The shape test gives the same answer on an input and on its normal form. */
  lemma NormalizeKeepsPattern(s: string)
    ensures EmailPattern(Normalize(s)) == EmailPattern(s)
  {
    PatternSurvivesTrim(s);
    PatternIgnoresCase(Trim(s));
  }
}

=== FILE: text.dfy ===
/**
 The string operations the email-intake pipeline relies on:
 - whitespace as JavaScript's `trim` and the regular-expression class `\s` see it,
 - `String.prototype.trim`,
 - `String.prototype.toLowerCase`, restricted to ASCII letters,
 - `/\S+@\S+\.\S+/.test(s)`, the unanchored email-shape test.
 */
module Text {

  /** ECMAScript WhiteSpace and LineTerminator code points: the set removed by
      `trim` and matched by `\s` (and so refused by `\S`). */
  predicate IsSpace(c: char) {
    || c == '\t' || c == '\n' || c == '\U{000B}' || c == '\U{000C}' || c == '\r'
    || c == ' ' || c == '\U{00A0}' || c == '\U{1680}'
    || ('\U{2000}' <= c <= '\U{200A}')
    || c == '\U{2028}' || c == '\U{2029}' || c == '\U{202F}' || c == '\U{205F}'
    || c == '\U{3000}' || c == '\U{FEFF}'
  }

  predicate AllSpace(s: string) {
    forall i | 0 <= i < |s| :: IsSpace(s[i])
  }

  predicate NoSpace(s: string) {
    forall i | 0 <= i < |s| :: !IsSpace(s[i])
  }

  // ---------------------------------------------------------------------------
  // trim
  // ---------------------------------------------------------------------------

  /** The index of the first non-space character at or after `i`, or `|s|`
      when there is none. */
  function SkipSpaces(s: string, i: nat): (lo: nat)
    requires i <= |s|
    ensures i <= lo <= |s|
    ensures forall k | i <= k < lo :: IsSpace(s[k])
    ensures lo < |s| ==> !IsSpace(s[lo])
    decreases |s| - i
  {
    if i == |s| || !IsSpace(s[i]) then i else SkipSpaces(s, i + 1)
  }

  /** The end of `s[lo..j]` once trailing whitespace is dropped: every
      character from the result up to `j` is whitespace, and the one just
      before the result (if any past `lo`) is not. */
  function SkipSpacesBack(s: string, lo: nat, j: nat): (hi: nat)
    requires lo <= j <= |s|
    ensures lo <= hi <= j
    ensures forall k | hi <= k < j :: IsSpace(s[k])
    ensures lo < hi ==> !IsSpace(s[hi - 1])
    decreases j
  {
    if j == lo || !IsSpace(s[j - 1]) then j else SkipSpacesBack(s, lo, j - 1)
  }

  /** `s[lo..hi]` is `s` with its surrounding whitespace cut off: everything
      before `lo` and from `hi` on is whitespace, and what is kept is empty or
      starts and ends with a non-space character. */
  ghost predicate TrimBounds(s: string, lo: int, hi: int) {
    && 0 <= lo <= hi <= |s|
    && (forall i | 0 <= i < lo :: IsSpace(s[i]))
    && (forall i | hi <= i < |s| :: IsSpace(s[i]))
    && (lo < hi ==> !IsSpace(s[lo]) && !IsSpace(s[hi - 1]))
  }

  /** `String.prototype.trim`. */
  function Trim(s: string): (r: string)
    ensures exists lo, hi :: TrimBounds(s, lo, hi) && r == s[lo..hi]
  {
    var lo := SkipSpaces(s, 0);
    var hi := SkipSpacesBack(s, lo, |s|);
    assert TrimBounds(s, lo, hi);
    s[lo..hi]
  }

  /** The trimmed string is unique: whatever bounds satisfy `TrimBounds`
      select exactly what `Trim` returns. */
  lemma TrimUnique(s: string, lo: int, hi: int)
    requires TrimBounds(s, lo, hi)
    ensures Trim(s) == s[lo..hi]
  {
    var lo' := SkipSpaces(s, 0);
    var hi' := SkipSpacesBack(s, lo', |s|);
    assert TrimBounds(s, lo', hi');
    // neither pair of bounds can keep a character the other cuts as whitespace
    if lo < hi {
      assert lo' == lo;
      assert hi' == hi;
    } else {
      assert lo' == hi';
    }
  }

  /** Trimming twice is trimming once. */
  lemma TrimIdempotent(s: string)
    ensures Trim(Trim(s)) == Trim(s)
  {
    var r := Trim(s);
    var lo, hi :| TrimBounds(s, lo, hi) && r == s[lo..hi];
    assert r[..0] == [] && r[|r|..] == [];
    assert TrimBounds(r, 0, |r|);
    TrimUnique(r, 0, |r|);
  }

  /** Padding a string with whitespace on either side does not change its trim. */
  lemma TrimIgnoresPadding(u: string, s: string, v: string)
    requires AllSpace(u) && AllSpace(v)
    ensures Trim(u + s + v) == Trim(s)
  {
    var r := Trim(s);
    var lo, hi :| TrimBounds(s, lo, hi) && r == s[lo..hi];
    var w := u + s + v;
    var a, b := |u| + lo, |u| + hi;
    assert w[a..b] == r;
    forall i | 0 <= i < a ensures IsSpace(w[i]) {
      if i < |u| { assert w[i] == u[i]; } else { assert w[i] == s[i - |u|]; }
    }
    forall i | b <= i < |w| ensures IsSpace(w[i]) {
      if i < |u| + |s| { assert w[i] == s[i - |u|]; } else { assert w[i] == v[i - |u| - |s|]; }
    }
    assert TrimBounds(w, a, b);
    TrimUnique(w, a, b);
  }

  // ---------------------------------------------------------------------------
  // toLowerCase
  // ---------------------------------------------------------------------------

  function LowerChar(c: char): char {
    if 'A' <= c <= 'Z' then (c as int + 32) as char else c
  }

  /** `String.prototype.toLowerCase` on ASCII letters; every other character is kept. */
  function ToLower(s: string): (r: string)
    ensures |r| == |s|
    ensures forall i | 0 <= i < |s| :: r[i] == LowerChar(s[i])
  {
    seq(|s|, i requires 0 <= i < |s| => LowerChar(s[i]))
  }

  /** Lowercasing a lowercased string changes nothing. */
  lemma ToLowerIdempotent(s: string)
    ensures ToLower(ToLower(s)) == ToLower(s)
  {
  }

  /** Lowercasing never turns a space into a non-space or back. */
  lemma LowerKeepsSpaces(s: string)
    ensures forall i | 0 <= i < |s| :: IsSpace(ToLower(s)[i]) <==> IsSpace(s[i])
  {
  }

  /** Trimming and lowercasing commute, so `trim().toLowerCase()` and
      `toLowerCase().trim()` normalise alike. */
  lemma TrimLowerCommute(s: string)
    ensures Trim(ToLower(s)) == ToLower(Trim(s))
  {
    var r := Trim(s);
    var lo, hi :| TrimBounds(s, lo, hi) && r == s[lo..hi];
    var l := ToLower(s);
    LowerKeepsTrimBounds(s, lo, hi);
    TrimUnique(l, lo, hi);
    LowerSlice(s, lo, hi);
  }

  /** Lowercasing keeps the bounds `trim` cuts at. */
  lemma LowerKeepsTrimBounds(s: string, lo: int, hi: int)
    requires TrimBounds(s, lo, hi)
    ensures TrimBounds(ToLower(s), lo, hi)
  {
    LowerKeepsSpaces(s);
  }

  /** Lowercasing a slice is slicing the lowercased string. */
  lemma LowerSlice(s: string, lo: int, hi: int)
    requires 0 <= lo <= hi <= |s|
    ensures ToLower(s)[lo..hi] == ToLower(s[lo..hi])
  {
    var l, r := ToLower(s)[lo..hi], ToLower(s[lo..hi]);
    assert forall k | 0 <= k < hi - lo :: l[k] == r[k];
  }

  // ---------------------------------------------------------------------------
  // /\S+@\S+\.\S+/.test
  // ---------------------------------------------------------------------------

  /** `t` as a whole has the shape `\S+@\S+\.\S+`: a non-empty run of non-space
      characters, `@`, another non-empty run, `.`, and a last non-empty run
      (the runs may themselves contain `@` and `.`). */
  ghost predicate WholeShape(t: string) {
    && NoSpace(t)
    && exists i, j | 0 < i && i + 1 < j && j + 1 < |t| :: t[i] == '@' && t[j] == '.'
  }

  /** What `RegExp.prototype.test` answers for the unanchored pattern: some
      substring of `s` has the whole shape. */
  ghost predicate PatternOccurs(s: string) {
    exists lo, hi | 0 <= lo <= hi <= |s| :: WholeShape(s[lo..hi])
  }

  /** A shortest match, with its `@` at `p` and its `.` at `q`: one character
      for each `\S+`. */
  predicate MatchAt(s: string, p: int, q: int) {
    && 1 <= p && p + 1 < q && q + 1 < |s|
    && s[p] == '@' && s[q] == '.'
    && forall k | p - 1 <= k <= q + 1 :: !IsSpace(s[k])
  }

  /** `/\S+@\S+\.\S+/.test(s)`. */
  function EmailPattern(s: string): (b: bool)
    ensures b <==> PatternOccurs(s)
  {
    PatternOccursLocally(s);
    exists p, q | 0 <= p < q < |s| :: MatchAt(s, p, q)
  }

  /** Every match contains a shortest match, and a shortest match is a match. */
  lemma PatternOccursLocally(s: string)
    ensures PatternOccurs(s) <==> exists p, q | 0 <= p < q < |s| :: MatchAt(s, p, q)
  {
    if PatternOccurs(s) {
      var lo, hi :| 0 <= lo <= hi <= |s| && WholeShape(s[lo..hi]);
      var t := s[lo..hi];
      var i, j :| 0 < i && i + 1 < j && j + 1 < |t| && t[i] == '@' && t[j] == '.';
      assert forall k | lo + i - 1 <= k <= lo + j + 1 :: s[k] == t[k - lo];
      assert MatchAt(s, lo + i, lo + j);
    }
    if exists p, q | 0 <= p < q < |s| :: MatchAt(s, p, q) {
      var p, q :| 0 <= p < q < |s| && MatchAt(s, p, q);
      var t := s[p - 1..q + 2];
      assert t[1] == '@' && t[q - p + 1] == '.';
      assert WholeShape(t);
    }
  }

  /** Text around a match does not hide it: `test` succeeds on any string that
      contains an address-shaped word, whatever surrounds it. */
  lemma PatternInContext(u: string, s: string, v: string)
    requires EmailPattern(s)
    ensures EmailPattern(u + s + v)
  {
    var p, q :| 0 <= p < q < |s| && MatchAt(s, p, q);
    var w := u + s + v;
    assert forall k | 0 <= k < |s| :: w[|u| + k] == s[k];
    assert MatchAt(w, |u| + p, |u| + q);
  }

  /** A string made only of whitespace never matches. */
  lemma NoPatternInSpaces(s: string)
    requires AllSpace(s)
    ensures !EmailPattern(s)
  {
  }

  /** Every match holds an `@` and a `.` after it, at least five characters in all. */
  lemma PatternNeedsAtAndDot(s: string)
    requires EmailPattern(s)
    ensures '@' in s && '.' in s && |s| >= 5
  {
    var p, q :| 0 <= p < q < |s| && MatchAt(s, p, q);
    assert s[p] == '@' && s[q] == '.';
  }

  /** Testing the trimmed string gives the same answer as testing the raw one:
      a match consists of non-space characters, which trimming keeps. */
  lemma PatternSurvivesTrim(s: string)
    ensures EmailPattern(Trim(s)) == EmailPattern(s)
  {
    var r := Trim(s);
    var lo, hi :| TrimBounds(s, lo, hi) && r == s[lo..hi];
    if EmailPattern(r) {
      var p, q :| 0 <= p < q < |r| && MatchAt(r, p, q);
      assert forall k | p - 1 <= k <= q + 1 :: s[lo + k] == r[k];
      assert MatchAt(s, lo + p, lo + q);
    }
    if EmailPattern(s) {
      MatchInsideTrim(s, lo, hi);
    }
  }

  /** A match lies between the trim bounds, so the trimmed string keeps it. */
  lemma MatchInsideTrim(s: string, lo: int, hi: int)
    requires TrimBounds(s, lo, hi)
    requires EmailPattern(s)
    ensures EmailPattern(s[lo..hi])
  {
    var p, q :| 0 <= p < q < |s| && MatchAt(s, p, q);
    assert !IsSpace(s[p - 1]) && !IsSpace(s[q + 1]);
    assert lo <= p - 1 && q + 1 < hi;
    var r := s[lo..hi];
    assert forall k | p - 1 <= k <= q + 1 :: r[k - lo] == s[k];
    assert MatchAt(r, p - lo, q - lo);
  }

  /** Lowercasing does not change the answer: it never creates or removes
      whitespace, `@` or `.`. */
  lemma PatternIgnoresCase(s: string)
    ensures EmailPattern(ToLower(s)) == EmailPattern(s)
  {
    var l := ToLower(s);
    LowerKeepsSpaces(s);
    if EmailPattern(s) {
      var p, q :| 0 <= p < q < |s| && MatchAt(s, p, q);
      assert MatchAt(l, p, q);
    }
    if EmailPattern(l) {
      var p, q :| 0 <= p < q < |l| && MatchAt(l, p, q);
      assert MatchAt(s, p, q);
    }
  }

  /** Whitespace outside the address-shaped part does not make the test fail. */
  lemma SpacesOutsideMatchPass()
    ensures EmailPattern("write to a@b.co today")
    ensures EmailPattern(" a@b.co ")
  {
    assert MatchAt("write to a@b.co today", 10, 12);
    assert MatchAt(" a@b.co ", 2, 4);
  }

  /** Inputs the test refuses: no `.` after the `@`, nothing before the `@`,
      nothing between `@` and `.`, and a whitespace-only string. */
  lemma NonMatches()
    ensures !EmailPattern("a@b")
    ensures !EmailPattern("@b.co")
    ensures !EmailPattern("a@.co")
    ensures !EmailPattern("a b@c d.e")
    ensures !EmailPattern("   ")
  {
    var w := "a b@c d.e";
    forall p, q | 0 <= p < q < |w| ensures !MatchAt(w, p, q) {
      if 1 <= p && p + 1 < q && q + 1 < |w| && w[p] == '@' && w[q] == '.' {
        assert p == 3 && q == 7;
        assert IsSpace(w[5]);
      }
    }
  }
}

=== FILE: token_cache.dfy ===
/**
 The access-token cache of the intake server (`getAccessToken`): a process-wide
 connection descriptor is reused while its `expires_at` lies in the future, and
 otherwise refetched from the connector service with an identity header chosen
 from the environment.

 The fetch is an oracle: its reply is a parameter. The clock is the parameter
 `now` (milliseconds). Strings stand for values JavaScript tests for
 truthiness, with "" covering both a missing and an empty value.
 */
module TokenCache {
  import opened Base

  /** The `settings` object of a descriptor. `expiresAt` is `Some(t)` when
      `expires_at` is present and denotes the instant `t`; it is `None` when it
      is missing or does not denote an instant (`new Date(..)` is then NaN and
      every comparison with it is false). */
  datatype Settings = Settings(expiresAt: Option<int>, accessToken: string, oauthAccessToken: string)

  /** A connection descriptor (`connectionSettings`, the first item of the reply). */
  datatype Descriptor = Descriptor(settings: Option<Settings>)

  /** The two identity variables, `REPL_IDENTITY` and `WEB_REPL_RENEWAL`. */
  datatype Identity = Identity(replIdentity: string, webReplRenewal: string)

  /** The connector service's answer to one fetch: the request or the JSON
      parsing failed, or the reply arrived with `items[0]` (if any). */
  datatype Reply = Unreachable | Answered(first: Option<Descriptor>)

  /** Why `getAccessToken` throws. */
  datatype TokenError = NoIdentity | FetchFailed | NotConnected

  /** One call of `getAccessToken`: the cache it leaves behind, the identity
      header of the fetch it issued (`None` when it issued none), and the token
      it returns or the error it raises. */
  datatype Lookup = Lookup(cache: Option<Descriptor>, fetchedWith: Option<string>, token: Result<string, TokenError>)

  /** The cache hit test: a descriptor is held, it has settings, its expiry is
      known, and the expiry is strictly later than `now`. */
  predicate IsFresh(cache: Option<Descriptor>, now: int) {
    && cache.Some?
    && cache.value.settings.Some?
    && cache.value.settings.value.expiresAt.Some?
    && cache.value.settings.value.expiresAt.value > now
  }

  /** The `X_REPLIT_TOKEN` header value: `repl` identity first, `depl` renewal
      token second, none when both are unset. */
  function IdentityHeader(id: Identity): (h: Option<string>)
    ensures h.None? <==> id.replIdentity == "" && id.webReplRenewal == ""
    ensures id.replIdentity != "" ==> h == Some("repl " + id.replIdentity)
    ensures id.replIdentity == "" && id.webReplRenewal != "" ==> h == Some("depl " + id.webReplRenewal)
  {
    if id.replIdentity != "" then Some("repl " + id.replIdentity)
    else if id.webReplRenewal != "" then Some("depl " + id.webReplRenewal)
    else None
  }

  /** The token a freshly fetched descriptor yields: `settings.access_token`,
      or else `settings.oauth.credentials.access_token`; "" when neither is set. */
  function FetchedToken(d: Option<Descriptor>): (t: string)
    ensures t != "" ==> d.Some? && d.value.settings.Some?
    ensures t != "" ==> t == d.value.settings.value.accessToken || t == d.value.settings.value.oauthAccessToken
    ensures d.Some? && d.value.settings.Some? && d.value.settings.value.accessToken != ""
            ==> t == d.value.settings.value.accessToken
    ensures t == "" <==> (d.None? || d.value.settings.None?
                          || (d.value.settings.value.accessToken == "" && d.value.settings.value.oauthAccessToken == ""))
  {
    if d.None? || d.value.settings.None? then ""
    else if d.value.settings.value.accessToken != "" then d.value.settings.value.accessToken
    else d.value.settings.value.oauthAccessToken
  }

  /** `getAccessToken()`, as a function of the cache, the clock, the identity
      variables and the reply the connector would give. */
  function GetAccessToken(cache: Option<Descriptor>, now: int, id: Identity, reply: Reply): (l: Lookup)
    // a hit: no fetch, the cache stays, and the token is `settings.access_token` alone
    ensures IsFresh(cache, now) ==>
      l.fetchedWith.None? && l.cache == cache && l.token == Ok(cache.value.settings.value.accessToken)
    // a miss without identity: throws before any fetch, cache untouched
    ensures !IsFresh(cache, now) && IdentityHeader(id).None? ==>
      l.fetchedWith.None? && l.cache == cache && l.token == Err(NoIdentity)
    // a miss with identity: exactly one fetch, carrying the chosen header
    ensures !IsFresh(cache, now) && IdentityHeader(id).Some? ==> l.fetchedWith == IdentityHeader(id)
    // a failed fetch throws and leaves the cache as it was
    ensures l.fetchedWith.Some? && reply.Unreachable? ==> l.cache == cache && l.token == Err(FetchFailed)
    // an answered fetch replaces the cache, even when no token comes of it
    ensures l.fetchedWith.Some? && reply.Answered? ==>
      && l.cache == reply.first
      && (l.token.Ok? <==> FetchedToken(reply.first) != "")
      && (l.token.Ok? ==> l.token.value == FetchedToken(reply.first))
      && (l.token.Err? ==> l.token.error == NotConnected)
  {
    if IsFresh(cache, now) then
      Lookup(cache, None, Ok(cache.value.settings.value.accessToken))
    else
      match IdentityHeader(id)
      case None => Lookup(cache, None, Err(NoIdentity))
      case Some(h) =>
        match reply
        case Unreachable => Lookup(cache, Some(h), Err(FetchFailed))
        case Answered(d) =>
          var token := FetchedToken(d);
          if token == "" then Lookup(d, Some(h), Err(NotConnected))
          else Lookup(d, Some(h), Ok(token))
  }

  /** A descriptor fetched with an expiry later than a second call's clock is
      reused by that call: no second fetch, whatever the identity variables and
      the connector would now say, and the token is the descriptor's
      `settings.access_token`. */
  lemma RefreshIsReused(cache: Option<Descriptor>, now: int, id: Identity, reply: Reply,
                        now': int, id': Identity, reply': Reply)
    requires GetAccessToken(cache, now, id, reply).fetchedWith.Some?
    requires reply.Answered? && reply.first.Some? && reply.first.value.settings.Some?
    requires reply.first.value.settings.value.expiresAt.Some?
    requires now' < reply.first.value.settings.value.expiresAt.value
    ensures var first := GetAccessToken(cache, now, id, reply);
            var second := GetAccessToken(first.cache, now', id', reply');
            && second.fetchedWith.None?
            && second.cache == first.cache
            && second.token == Ok(reply.first.value.settings.value.accessToken)
            && (first.token.Ok? && reply.first.value.settings.value.accessToken != ""
                ==> second.token == first.token)
  {
  }

  /** A second lookup with the same clock, identity and connector reply
      leaves the cache where the first left it: either the first left a fresh
      descriptor, which the second reuses, or the second fetches the same
      reply again or fails the same way. */
  lemma LookupSettles(cache: Option<Descriptor>, now: int, id: Identity, reply: Reply)
    ensures var first := GetAccessToken(cache, now, id, reply);
            GetAccessToken(first.cache, now, id, reply).cache == first.cache
  {
  }

  /** The hit path does not fall back to the OAuth token as the fetch path
      does: a descriptor that carries only `oauth.credentials.access_token`
      yields that token when fetched and an empty (undefined) one when reused. */
  lemma HitIgnoresOAuthFallback()
    ensures var d := Descriptor(Some(Settings(Some(2000), "", "oauth-token")));
            var id := Identity("me", "");
            var first := GetAccessToken(None, 1000, id, Answered(Some(d)));
            var second := GetAccessToken(first.cache, 1500, id, Answered(Some(d)));
            && first.token == Ok("oauth-token")
            && second.fetchedWith.None?
            && second.token == Ok("")
  {
  }
}
